=== FILE: README.md ===
# Attendance for a dance school, modelled in Dafny

The system is a small spreadsheet-backed attendance application for a
dance school. A spreadsheet holds a **Classes** sheet (one row per class:
id, date, price, class group), a **Students** sheet (id, name, class group,
active flag) and an **Attendance** sheet (one row per student present at a
class: student id in column B, class id in column C). Three server
functions do the work and are modelled here:

- **the class catalog** (`getClasses`, module `ClassCatalog`): every class
  row with a date and a class group becomes an entry with a display name;
  entries dated today or later are filed as upcoming, soonest first, the
  others (including every entry whose date cannot be read) as prior,
  latest first. Each list is re-sorted as each entry is added, so the model
  is a loop that inserts into a sorted sequence. The comparator is
  consistent only on readable dates, so the prior list's order is promised
  only when every class row has one.
- **the roster builder** (`getAttendanceForClass`, module `RosterBuilder`):
  a join of the three tables. It finds the class group of the class, keeps
  the students of that group who are either active or recorded present,
  marks each one present or not, and sorts them by upper-cased name. This
  code is a chain of `filter`/`find`/`reduce`/`sort`, and the model is a set
  of pure functions; the one way it can fail (the comparator calling
  `toUpperCase` on a name that is not a string) is a `Result`.
- **the attendance writer** (`submitAttendanceForClass`, module
  `AttendanceWriter`): it replaces the Attendance rows of one class in two
  phases on the live sheet. First it deletes the class's rows from the
  bottom up, at row numbers taken from a snapshot read before the first
  delete. Then it writes one `(student id, class id)` row per submitted
  student, starting right below the last row whose student cell is filled.
  The sheet is a class (`TabularStore.Sheet`) whose rows the methods change
  in place; each method is proved equal to a function of the old rows, and
  the properties of the submission are proved about that function.

`Cells` holds the cell values a sheet read returns (numbers, strings,
booleans, dates; an empty cell reads as the empty string) and the
JavaScript operations the code applies to them: truthiness, `===`,
template-string conversion, upper-casing and string comparison.
`TabularStore` holds the sheet operations the writer uses
(`getDataRange().getValues()`, `getLastRow()`, a column read,
`deleteRow`, and a write to columns B:C of one row).

Three details shape what the model promises:

- The roster reads a class's group key from column 1 (B) of its Classes
  row, while the catalog's display name uses the class group column (E).
- A class with no Classes row has the group key `undefined`. It gives an
  empty roster when every Students row reaches the group column
  (`RosterBuilder.UnknownClassGivesEmptyRoster`). A row that stops short
  of that column destructures to `undefined` too, so it matches the key,
  and since its active flag is `undefined` as well it is shown exactly
  when its id is recorded present.
- The writer takes row 1 of the Attendance sheet to hold the column
  headings, as the code's `slice(1)` does.

## Model

| member | source | states |
|---|---|---|
| ClassCatalog.GetClasses | src/index.ts:80-123 | as multisets the two lists hold exactly the entries of the class rows dated on/after today and of the other class rows, with the header row skipped; upcoming entries all have readable dates and are in ascending date order; the prior list has only readable dates exactly when every class row's date is readable, and is then in descending date order |
| ClassCatalog.FileRow | src/index.ts:85-113 | one reduce step: as multisets, each list gains exactly what the row files into it (a class row's entry joins only the list its date selects; a placeholder row adds nothing); upcoming stays dated and in order, and prior is in order whenever all its entries are dated |
| ClassCatalog.Insert | src/index.ts:94-110 | push then sort: the result is the old list plus the new entry, as a multiset; it is fully dated iff the list and the entry are, and then it is in date order when the list was |
| ClassCatalog.DatedMultiset | src/index.ts:94-110 | two lists with the same entries are both fully dated or both not |
| ClassCatalog.FiledFrom | src/index.ts:87-94 | `e` is the entry this class row pushes, and the row's date selects that list |
| ClassCatalog.EntryFrom | src/index.ts:87-100 | `e` is the entry this row pushes, and the row has a class group and a date |
| ClassCatalog.PriorDated | src/index.ts:87-92 | the prior list holds an entry without a readable date exactly when some class row's date is not a readable date |
| ClassCatalog.DayOf | src/index.ts:88 | the day of a date cell; any other cell counts as unreadable (the model reads only date cells as dates) |
| ClassCatalog.DisplayDate | src/index.ts:88 | `toLocaleDateString()` of the day, or "Invalid Date" |
| ClassCatalog.IsClassRow | src/index.ts:87 | `classGroup && date`: both cells truthy |
| ClassCatalog.IsUpcomingDay | src/index.ts:89-92 | `classDate >= today`; an unreadable date compares as NaN and is never upcoming |
| ClassCatalog.EntryOf | src/index.ts:86-100 | the entry pushed for a row: id, date, price, class group and display name; its properties are in `DisplayNameFormat` |
| ClassCatalog.Filed | src/index.ts:87-94 | what one row adds to the upcoming or the prior list; characterised by `FiledMembership` |
| ClassCatalog.Bucket | src/index.ts:84-100 | the entries the reduce files into one list, in row order; characterised by `BucketMembership` and `BucketsPartition` |
| ClassCatalog.Entries | src/index.ts:86-100 | the entries of all class rows, in row order; characterised by `EntriesMembership` |
| ClassCatalog.InOrder | src/index.ts:103-108 | the comparator's order on two entries: ascending days for upcoming, descending for prior; an entry without a readable date is unordered |
| ClassCatalog.Sorted | src/index.ts:102-110 | every pair of entries in the list is in the comparator's order |
| ClassCatalog.StrictlyAfter | src/index.ts:106-108 | the comparator puts the entry strictly after the dated new one |
| ClassCatalog.AllDated | src/index.ts:88-90 | every entry has a readable date, so the comparator is consistent on the list |
| ClassCatalog.ClassRowsDated | src/index.ts:87-88 | every class row's date cell is a readable date |
| ClassCatalog.SplicedSorted | src/index.ts:102-110 | placing an entry between the entries it follows and the ones it precedes keeps a list sorted |
| ClassCatalog.BucketStep | src/index.ts:84-85 | the entries filed from the first k+1 rows are those from the first k rows followed by what row k adds |
| ClassCatalog.FiledMembership | src/index.ts:86-94 | unfolds the definition of `Filed`: one row adds an entry to a list exactly when it is a class row whose date selects that list, and the entry is that row's entry |
| ClassCatalog.BucketMembership | src/index.ts:84-100 | an entry is in the upcoming (prior) list iff it is the entry of some class row dated on/after (before) today |
| ClassCatalog.BucketSource | src/index.ts:84-100 | every entry of a list comes from a class row that selects that list |
| ClassCatalog.BucketHolds | src/index.ts:84-100 | every class row's entry is in the list its date selects |
| ClassCatalog.BucketsPartition | src/index.ts:87-92 | upcoming and prior together hold each class row's entry exactly once: their multisets add up to all entries, and their lengths to the number of class rows |
| ClassCatalog.EntriesMembership | src/index.ts:86-100 | the entries are exactly those of the rows that have both a class group and a date |
| ClassCatalog.EntrySource | src/index.ts:86-100 | every entry comes from a row with a class group and a date |
| ClassCatalog.EntryHolds | src/index.ts:86-100 | every row with a class group and a date contributes its entry |
| ClassCatalog.TodayIsUpcoming | src/index.ts:89-92 | a class dated today is upcoming (the boundary is inclusive) and a class dated before today is prior |
| ClassCatalog.PlaceholderRowsAddNothing | src/index.ts:86-87 | a row lacking a class group or a date adds nothing to either list |
| ClassCatalog.DisplayNameFormat | src/index.ts:94-100 | unfolds the definition of `EntryOf`: an entry keeps the row's id, price and class group, and its display name is the display date, " - ", then the class group |
| RosterBuilder.Roster | src/index.ts:125-175 | `getAttendanceForClass` on the three tables' values: the shown students sorted by name, or the error the comparator throws; its properties are in `RosterContents` and `RosterFailure` |
| RosterBuilder.GroupKey | src/index.ts:138-139 | column 1 of the first Classes data row for the class, or `undefined` when there is none |
| RosterBuilder.ClassStudents | src/index.ts:134-136 | the student cells of the rows recording the class, in order; characterised by `ClassStudentsMembership` |
| RosterBuilder.PresentIds | src/index.ts:133-136 | `studentsPresent` over the Attendance data rows; characterised by `PresentIdsMembership` |
| RosterBuilder.RecordsClass | src/index.ts:135 | `classLookupId === classId` on column 2 of an Attendance row |
| RosterBuilder.IsRowOfClass | src/index.ts:139 | `classId === classLookupId` on column 0 of a Classes row |
| RosterBuilder.Shown | src/index.ts:145-150 | same class group (by `===`), and recorded present or active |
| RosterBuilder.EntryFor | src/index.ts:151-155 | the pushed entry: id, name, and whether the id is among the present ids |
| RosterBuilder.Candidates | src/index.ts:140-159 | the reduce over the Students rows: the shown students in row order; characterised by `CandidatesMembership` |
| RosterBuilder.Includes | src/index.ts:145 | `includes`: some element is `===` to the id (the same at line 154) |
| RosterBuilder.NameKey | src/index.ts:161-162 | the comparator's key: the upper-cased name, or "" for a name that is not a string, which `Roster` reports as the error instead |
| RosterBuilder.NameLe | src/index.ts:163-171 | the comparator does not return 1: the first key is not greater than the second |
| RosterBuilder.SortedByName | src/index.ts:160-172 | every pair of entries is in the comparator's order |
| RosterBuilder.HasNonTextName | src/index.ts:161-162 | some entry's name is not a string, so `toUpperCase` throws |
| RosterBuilder.RecordsStudent | src/index.ts:135-136 | an Attendance row records the class and its student cell is `===` to the id |
| RosterBuilder.FindClass | src/index.ts:138-139 | the first Classes data row whose id is the class, or none when no row has that id |
| RosterBuilder.InsertByName | src/index.ts:160-172 | inserting into a list sorted by upper-cased name keeps it sorted and adds exactly the new entry |
| RosterBuilder.SortedTail | src/index.ts:160-172 | the tail of a list sorted by upper-cased name is sorted |
| RosterBuilder.InsertedBehindHead | src/index.ts:160-172 | an entry that does not go before the head is inserted into the tail, and the result is sorted and holds the list plus the entry |
| RosterBuilder.SortedCons | src/index.ts:160-172 | putting an entry in front of a sorted list whose head it does not follow keeps it sorted |
| RosterBuilder.SortByName | src/index.ts:160-172 | the sorted roster is ordered by upper-cased name and is a permutation of the students found |
| RosterBuilder.NameLeTotal | src/index.ts:160-172 | the comparator orders any two names one way or the other |
| RosterBuilder.NameLeTransitive | src/index.ts:160-172 | the comparator's order is transitive |
| RosterBuilder.RosterContents | src/index.ts:125-175 | a returned roster is sorted by upper-cased name, is a permutation of the shown students, holds an entry exactly for each Students data row of the class's group that is active or recorded present, and marks an entry present iff an Attendance data row records that student id for the class |
| RosterBuilder.RosterFailure | src/index.ts:160-172 | unfolds the definition of `Roster`: the roster fails exactly when two or more students are shown and one of them has a name that is not a string |
| RosterBuilder.UnknownClassGivesEmptyRoster | src/index.ts:138-159 | with no Classes row for the class, and every Students row reaching the group column, the roster is empty |
| RosterBuilder.NoneShown | src/index.ts:140-159 | when no Students row is shown the reduce yields nothing |
| RosterBuilder.IncludesConcat | src/index.ts:145 | `includes` on a concatenation is `includes` on either part |
| RosterBuilder.ClassStudentsMembership | src/index.ts:133-136 | a student id is in the present set iff some row records that id for the class |
| RosterBuilder.PresentIdsMembership | src/index.ts:133-136 | a student id is in the present set iff some Attendance data row, after the header, records that id for the class |
| RosterBuilder.CandidatesMembership | src/index.ts:140-159 | an entry is found iff it stands for a shown Students row |
| RosterBuilder.CandidateOfStudents | src/index.ts:140-159 | an entry is found iff it stands for a shown Students data row after the header |
| Cells.Col | src/index.ts:86 | array destructuring: the cell, or `undefined` past the row's end |
| Cells.Truthy | src/index.ts:87 | JavaScript truthiness: every cell value is truthy except `undefined`, 0, "" and false |
| Cells.StrictEq | src/index.ts:135 | `===` (and `includes`) on cell values: the same value, except that two dates are never equal |
| Cells.CellText | src/index.ts:99 | template-string conversion of a cell |
| Cells.Less | src/index.ts:163-168 | `<` on strings, lexicographic by character; its order properties are the four lemmas below |
| Cells.Data | src/index.ts:84 | `slice(1)`: the rows after the header, in order |
| Cells.Upper | src/index.ts:161-162 | upper-casing keeps the length and maps each character to its ASCII upper case |
| Cells.UpperChar | src/index.ts:161-162 | `toUpperCase` on one character, for the ASCII letters only |
| Cells.DigitChar | src/index.ts:99 | the character of one decimal digit of `${n}` |
| Cells.NatText | src/index.ts:99 | the decimal digits of a natural number, never empty |
| Cells.IntText | src/index.ts:99 | the decimal text of an integer, with a leading minus sign when negative |
| Cells.LessIrreflexive | src/index.ts:163-168 | no name is smaller than itself |
| Cells.LessTrichotomy | src/index.ts:163-171 | of two names one is smaller, or they are equal |
| Cells.LessTransitive | src/index.ts:163-168 | string comparison is transitive |
| Cells.LessAsymmetric | src/index.ts:163-168 | two names are never each smaller than the other |
| TabularStore.LastRowOf | src/index.ts:201 | the last row number is within the sheet, that row is occupied, and every row after it is empty |
| TabularStore.SheetCell | src/index.ts:202 | a range read of one cell: the cell, or "" past the row's end |
| TabularStore.Occupied | src/index.ts:201 | what `getLastRow()` counts: a row with some non-empty cell |
| TabularStore.HasHeader | src/index.ts:187-189 | row 1 is occupied, as the column headings that `slice(1)` skips are |
| TabularStore.StudentColumnOf | src/index.ts:202 | `getRange("B1:B" + n).getValues()`: column B of rows 1 to n |
| TabularStore.WriteKeepsCells | src/index.ts:211-213 | the B:C write leaves every other column of the row as it read before, and empty in a row the write added |
| TabularStore.WithCell | src/index.ts:211-213 | writing one cell sets that cell, keeps every other cell and pads the row with empty cells |
| TabularStore.WriteStudentClass | src/index.ts:211-213 | writing columns B:C of one row sets those two cells, keeps every other cell and row, and adds empty rows up to it |
| TabularStore.Sheet.constructor | src/index.ts:186 | a sheet with the given rows |
| TabularStore.Sheet.LastRow | src/index.ts:201 | `getLastRow()` is within the sheet |
| TabularStore.Sheet.DataValues | src/index.ts:187 | the data range is rows 1 to the last occupied row |
| TabularStore.Sheet.StudentColumn | src/index.ts:202 | the column read gives column B of each of the first n rows |
| TabularStore.Sheet.DeleteRow | src/index.ts:197 | the row goes and every later row moves up by one |
| TabularStore.Sheet.SetStudentClass | src/index.ts:211-213 | columns B:C of that row get the student id and class id |
| AttendanceWriter.SubmitAttendance | src/index.ts:182-215 | the sheet ends as the delete phase then the append phase on the old rows |
| AttendanceWriter.DeleteClassRows | src/index.ts:186-199 | after the bottom-up deletes the sheet is the header, the snapshot's data rows without the class (in order), then the rows after the snapshot; the header row is unchanged |
| AttendanceWriter.DeleteSnapshotRows | src/index.ts:188-199 | visiting the snapshot's data rows from the bottom and deleting at snapshot row numbers removes exactly the rows of the class |
| AttendanceWriter.DropVisited | src/index.ts:192-197 | a snapshot row of the class still sits at its snapshot row number when visited, and deleting it advances the visit by one |
| AttendanceWriter.KeepVisited | src/index.ts:192 | visiting a snapshot row of another class changes nothing |
| AttendanceWriter.SpliceOut | src/index.ts:197 | deleting the row right after a prefix removes exactly that row |
| AttendanceWriter.DeleteProgressDone | src/index.ts:188-199 | once every data row is visited the sheet is the delete phase's result, and it keeps its header |
| AttendanceWriter.WithoutClassStep | src/index.ts:188-199 | filtering a range of rows is filtering its first row then the rest |
| AttendanceWriter.WithoutClass | src/index.ts:188-199 | the rows the delete phase keeps, in order: the rows that do not record the class, as `WithoutClassMembership` and `WithoutClassKeepsOthers` state |
| AttendanceWriter.AfterDeletes | src/index.ts:186-199 | the sheet after the delete phase: header, the snapshot's data rows without the class, then the rows after the snapshot; its properties are in `DeletePhase` |
| AttendanceWriter.AppendRows | src/index.ts:209-214 | the sheet after writing each id into the row after the previous one; its shape is in `AppendRowsShape` |
| AttendanceWriter.Submitted | src/index.ts:182-215 | the whole effect of a submission: the delete phase, then the append phase from the append point; its properties are in `SubmitReplaces`, `Resubmission` and `SubmitKeepsOtherClasses` |
| AttendanceWriter.WithoutClassMembership | src/index.ts:192 | a row survives the delete phase iff it is a row of the sheet that does not record the class |
| AttendanceWriter.IndexFromBottom | src/index.ts:205 | `reverse().findIndex(...)`: the distance from the bottom of the last filled cell, with every cell below it empty, or -1 when all are empty |
| AttendanceWriter.AppendPoint | src/index.ts:201-205 | the first new row goes right after the last row with a filled student cell, and every row from there on has an empty student cell; with no filled cell at all it is one past the last occupied row |
| AttendanceWriter.LastStudentRow | src/index.ts:201-205 | the method computes that append point on the live sheet |
| AttendanceWriter.AppendPointIs | src/index.ts:203-205 | unfolds the definition of `AppendPoint`: the append point is the last row number less the distance from the bottom |
| AttendanceWriter.UnoccupiedRowIsEmpty | src/index.ts:201-202 | every cell of an unoccupied row reads empty |
| AttendanceWriter.AppendStudentRows | src/index.ts:201-214 | the append phase writes the submitted ids in order from the append point on |
| AttendanceWriter.WriteStudentRows | src/index.ts:209-214 | the loop writes `(ids[i], classId)` into row start+i+1 for each i in order |
| AttendanceWriter.AppendRowsStep | src/index.ts:209-214 | writing the next id extends the rows written so far by one |
| AttendanceWriter.AppendRowsKeepsCells | src/index.ts:211-213 | a written row keeps every cell outside columns B:C, and a row the append phase added has those cells empty |
| AttendanceWriter.IdCells | src/index.ts:213 | the submitted ids as the number cells written to column B |
| AttendanceWriter.DeleteProgress | src/index.ts:188-199 | the delete loop's state: snapshot rows above the visit point untouched, visited rows of the class gone, rows after the snapshot kept |
| AttendanceWriter.AppendRowsShape | src/index.ts:209-214 | after the append phase row start+i holds the i-th id and the class id, every other row is as before, and missing rows are added empty |
| AttendanceWriter.DeletePhase | src/index.ts:186-199 | after the delete phase the header stays, no data row records the class, and every other class keeps its present set in order |
| AttendanceWriter.AfterDeletesRows | src/index.ts:186-199 | every data row left by the delete phase was a data row before it |
| AttendanceWriter.AppendGivesIds | src/index.ts:209-214 | appending to a sheet with no row for the class leaves exactly the submitted ids as its present set, in order |
| AttendanceWriter.AppendedClassRows | src/index.ts:209-214 | after appending, a data row records the class exactly when it is one of the written rows |
| AttendanceWriter.AppendKeepsOthers | src/index.ts:209-214 | appending keeps another class's present set when all its rows lie above the append point |
| AttendanceWriter.ClassStudentsConcat | src/index.ts:133-136 | the present set splits where the rows split |
| AttendanceWriter.NoClassRows | src/index.ts:133-136 | rows with none of the class give an empty present set |
| AttendanceWriter.AllClassRows | src/index.ts:133-136 | rows all of the class give their student cells in order |
| AttendanceWriter.NoClassSlice | src/index.ts:133-136 | a range of rows with none of the class gives an empty present set |
| AttendanceWriter.AllClassSlice | src/index.ts:133-136 | a range of rows all of the class gives their student cells in order |
| AttendanceWriter.ClassBlock | src/index.ts:133-136 | when the class's rows are exactly one block, its present set is that block's student cells in order |
| AttendanceWriter.SameClassRows | src/index.ts:133-136 | two tables that agree on every row of the class give the same present set |
| AttendanceWriter.WithoutClassKeepsOthers | src/index.ts:192 | removing one class's rows keeps every other class's present set in order |
| AttendanceWriter.SubmitReplaces | src/index.ts:182-215 | after a submission the header is unchanged and the class's present set is exactly the submitted ids, in the submitted order |
| AttendanceWriter.Resubmission | src/index.ts:182-215 | submitting twice for a class leaves exactly the second list, with nothing left of the first |
| AttendanceWriter.SubmitKeepsOtherClasses | src/index.ts:182-215 | every other class keeps its present set, in order, when each of its rows has a filled student cell |
| AttendanceWriter.RosterAfterSubmit | src/index.ts:133-154 | after a submission the roster marks a student present exactly when the student's id is one of the submitted ids |
| AttendanceWriter.IncludesIdCells | src/index.ts:145 | a cell is among the written ids iff it is the number of one of them |

## Left out

- `doGet`, `include` and `includeTemplate` (src/index.ts:40-65) serve HTML templates. They are outside the attendance logic.
- `getSheetByName` (src/index.ts:72-78) is not modelled. Each function takes the values of the sheets it reads as parameters, and the writer takes its `Sheet`. The error for a missing sheet is therefore not modelled.
- AttendanceWriter.SubmitAttendance: requires row 1 of the Attendance sheet to be occupied, as its column headings are. The model assumes the header row; a sheet whose row 1 is blank, with data below, is handled by the code but not by the model. A wholly empty sheet, for which the code reads the range `B1:B0`, is not modelled either.
- The engine's clock, locale and time zone are parameters. `today` is a day number. `Locale` supplies the date formatting functions.
- Only date cells are read as dates. Parsing a string cell with `new Date(...)` is not modelled: such a cell gives an unreadable date, which files as prior.
- Locale date round-trip: `Date.parse(toLocaleDateString(d))` is taken to give back the day of `d` for every date cell. Times of day within a date are not modelled.
- Numbers are integers. Fractional cell values and `NaN` are not modelled.
- Case mapping covers the ASCII letters only. Strings compare by character, which matches JavaScript's comparison for characters in the Basic Multilingual Plane.
- ClassCatalog.GetClasses: the prior list's order is promised only when every class row has a readable date. An unreadable date files as prior, the comparator then answers -1 for every pair involving it, and JavaScript's `sort` leaves the order of the whole list implementation-defined; the model's list then holds the right entries in no promised order.
- ClassCatalog.FileRow: as for `GetClasses`, the prior list is promised sorted only while all its entries have readable dates.
- ClassCatalog.Insert: order is promised only when the list and the new entry all have readable dates. Insertion into a sorted list stands in for the engine's sort algorithm, and the order among entries of the same day is not stated. The comparators answer -1 both ways for two entries of the same day, so even date order on such lists rests on the engine's sort treating a tie as "not after"; V8's sort does, since it keeps every search monotone on a run sorted by date.
- `RosterBuilder.RosterContents`: the order among students whose upper-cased names are equal is not stated. The model keeps input order, as a stable sort does.
- Logging with `console.log` is left out.
- Concurrent edits to the spreadsheet and a failure part-way through a submission are left out. Each call is taken to run alone and to finish.
- `getValues()` pads every row to the width of the data range. The model reads a missing cell as empty (`SheetCell`) or as `undefined` (`Col`), depending on whether the code reads through the sheet or destructures a row.
- The sheet's maximum row count and its grid size are not modelled. A write below the last row simply grows the sheet.
- `RosterBuilder.UnknownClassGivesEmptyRoster` needs every Students row to reach the group column. A row that stops short destructures to `undefined`, which equals the missing group key.
- `AttendanceWriter.SubmitKeepsOtherClasses` needs every row of another class to have a filled student cell. The new rows overwrite columns B:C of rows whose student cell is empty below the last filled one.

=== FILE: attendance_writer.dfy ===
/**
 * The attendance writer (`submitAttendanceForClass`): replaces every
 * Attendance row of one class by one row per submitted student, in two
 * phases on the live sheet. First it deletes the class's rows, bottom to
 * top, at row numbers taken from a snapshot read before any delete; then
 * it writes the new rows below the last row whose student cell is filled.
 *
 * Attendance columns: 1 (B) student id, 2 (C) class id.
 */
module AttendanceWriter {
  import opened Cells
  import opened TabularStore
  import opened RosterBuilder

  /** The rows of `rows` that do not record `classId`, in their order. */
  function WithoutClass(rows: Table, classId: int): (r: Table)
    ensures |r| <= |rows|
  {
    if rows == [] then []
    else (if RecordsClass(rows[0], classId) then [] else [rows[0]]) + WithoutClass(rows[1..], classId)
  }

  /** A row is kept iff it is one of the rows and does not record the class. */
  lemma {:induction false} WithoutClassMembership(rows: Table, classId: int)
    ensures forall row :: row in WithoutClass(rows, classId) <==> row in rows && !RecordsClass(row, classId)
  {
    if rows != [] {
      WithoutClassMembership(rows[1..], classId);
      assert rows == [rows[0]] + rows[1..];
    }
  }

  /**
   * The sheet after the delete phase on a snapshot of its first `n` rows:
   * the header row, the snapshot's data rows without the class, then the
   * rows after the snapshot.
   */
  function AfterDeletes(rows: Table, n: nat, classId: int): Table
    requires 1 <= n <= |rows|
  {
    rows[..1] + WithoutClass(rows[1..n], classId) + rows[n..]
  }

  /**
   * `column.reverse().findIndex(c => c !== '')`: how far from the bottom
   * the last filled cell is, or -1 when every cell is empty.
   */
  function IndexFromBottom(column: seq<Cell>): (i: int)
    ensures -1 <= i < |column|
    ensures i >= 0 ==> column[|column| - 1 - i] != Empty
                       && forall j :: |column| - 1 - i < j < |column| ==> column[j] == Empty
    ensures i == -1 ==> forall j :: 0 <= j < |column| ==> column[j] == Empty
  {
    if column == [] then -1
    else if column[|column| - 1] != Empty then 0
    else
      var i := IndexFromBottom(column[..|column| - 1]);
      if i == -1 then -1 else i + 1
  }

  /**
   * `lastStudentRow`: the number of the last row with a filled student
   * cell; when there is none (not even in the header) it is one past the
   * last occupied row. New rows go right after it; every row from that
   * number on (0-based) has an empty student cell.
   */
  function AppendPoint(rows: Table): (p: nat)
    requires HasHeader(rows)
    ensures 1 <= p <= LastRowOf(rows) + 1
    ensures p <= LastRowOf(rows) ==> SheetCell(rows[p - 1], 1) != Empty
    ensures p == LastRowOf(rows) + 1 ==> forall k :: 0 <= k < |rows| ==> SheetCell(rows[k], 1) == Empty
    ensures forall k :: p <= k < |rows| ==> SheetCell(rows[k], 1) == Empty
  {
    var lastRow := LastRowOf(rows);
    var column := StudentColumnOf(rows, lastRow);
    var i := IndexFromBottom(column);
    forall k | lastRow <= k < |rows|
      ensures SheetCell(rows[k], 1) == Empty
    {
      UnoccupiedRowIsEmpty(rows[k], 1);
    }
    assert forall k :: 0 <= k < lastRow ==> column[k] == SheetCell(rows[k], 1);
    lastRow - i
  }

  lemma {:induction false} UnoccupiedRowIsEmpty(row: Row, c: nat)
    requires !Occupied(row)
    ensures SheetCell(row, c) == Empty
  {
    if c < |row| {
      assert row[c] == Empty;
    }
  }

  /** The rows after writing `(ids[i], classId)` into row number `start + i + 1` for each `i`, in order. */
  function AppendRows(rows: Table, start: nat, ids: seq<int>, classId: int): Table
    decreases |ids|
  {
    if ids == [] then rows
    else
      var n := |ids| - 1;
      WriteStudentClass(AppendRows(rows, start, ids[..n], classId), start + n, Num(ids[n]), Num(classId))
  }

  /**
   * What the append phase writes: row `start + i` (0-based) holds
   * `(ids[i], classId)`, every other row is as before, and the rows missing
   * before the first written one are added empty.
   */
  lemma {:induction false} AppendRowsShape(rows: Table, start: nat, ids: seq<int>, classId: int)
    ensures var r := AppendRows(rows, start, ids, classId);
      && |r| == (if ids == [] || start + |ids| <= |rows| then |rows| else start + |ids|)
      && (forall k :: 0 <= k < |r| && !(start <= k < start + |ids|) ==>
            r[k] == if k < |rows| then rows[k] else [])
      && (forall k :: start <= k < start + |ids| ==>
            Col(r[k], 1) == Num(ids[k - start]) && Col(r[k], 2) == Num(classId))
    decreases |ids|
  {
    if ids != [] {
      var n := |ids| - 1;
      var before := AppendRows(rows, start, ids[..n], classId);
      AppendRowsShape(rows, start, ids[..n], classId);
      var r := WriteStudentClass(before, start + n, Num(ids[n]), Num(classId));
      assert r == AppendRows(rows, start, ids, classId);
      forall k | start <= k < start + |ids|
        ensures Col(r[k], 1) == Num(ids[k - start]) && Col(r[k], 2) == Num(classId)
      {
        if k < start + n {
          assert ids[..n][k - start] == ids[k - start];
          assert r[k] == before[k];
        } else {
          assert |r[start + n]| >= 3;
        }
      }
    }
  }

  /**
   * A written row keeps every cell outside columns B:C; in a row the
   * append phase added, those cells are empty.
   */
  lemma {:induction false} AppendRowsKeepsCells(rows: Table, start: nat, ids: seq<int>, classId: int, k: nat, c: nat)
    requires start <= k < start + |ids| && c != 1 && c != 2
    ensures k < |AppendRows(rows, start, ids, classId)|
    ensures SheetCell(AppendRows(rows, start, ids, classId)[k], c)
            == if k < |rows| then SheetCell(rows[k], c) else Empty
    decreases |ids|
  {
    var n := |ids| - 1;
    var before := AppendRows(rows, start, ids[..n], classId);
    var r := WriteStudentClass(before, start + n, Num(ids[n]), Num(classId));
    assert r == AppendRows(rows, start, ids, classId);
    if k < start + n {
      AppendRowsKeepsCells(rows, start, ids[..n], classId, k, c);
      assert r[k] == before[k];
    } else {
      WriteKeepsCells(before, k, Num(ids[n]), Num(classId), c);
      AppendRowsShape(rows, start, ids[..n], classId);
      if k < |before| {
        assert !(start <= k < start + n);
        assert before[k] == if k < |rows| then rows[k] else [];
      }
    }
  }

  /** The whole effect of `submitAttendanceForClass` on the Attendance sheet. */
  function Submitted(rows: Table, classId: int, ids: seq<int>): Table
    requires HasHeader(rows)
  {
    var afterDeletes := AfterDeletes(rows, LastRowOf(rows), classId);
    assert afterDeletes[0] == rows[0];
    AppendRows(afterDeletes, AppendPoint(afterDeletes), ids, classId)
  }

  /**
   * `submitAttendanceForClass(classLookupId, presentStudents)` on the
   * Attendance sheet.
   */
  method SubmitAttendance(sheet: Sheet, classLookupId: int, presentStudents: seq<int>)
    requires HasHeader(sheet.rows)
    modifies sheet
    ensures sheet.rows == Submitted(old(sheet.rows), classLookupId, presentStudents)
  {
    DeleteClassRows(sheet, classLookupId);
    AppendStudentRows(sheet, classLookupId, presentStudents);
  }

  /**
   * The delete phase: the rows of the class are deleted from the bottom up,
   * each at its row number in a snapshot taken before the first delete.
   */
  method DeleteClassRows(sheet: Sheet, classLookupId: int)
    requires HasHeader(sheet.rows)
    modifies sheet
    ensures sheet.rows == AfterDeletes(old(sheet.rows), LastRowOf(old(sheet.rows)), classLookupId)
    ensures HasHeader(sheet.rows) && sheet.rows[0] == old(sheet.rows)[0]
  {
    ghost var before := sheet.rows;
    var attendanceData := sheet.DataValues();
    assert HasHeader(before);
    DeleteProgressDone(before, |attendanceData|, classLookupId);
    DeleteSnapshotRows(sheet, attendanceData, classLookupId);
  }

  /**
   * `attendanceData.slice(1).reverse().forEach(..., index)`: visit the data
   * rows of the snapshot from the bottom up; element `index` is the row with
   * 0-based position `n - 1 - index` and is deleted at row number
   * `n - index` when it records the class.
   */
  method DeleteSnapshotRows(sheet: Sheet, attendanceData: Table, classLookupId: int)
    requires 1 <= |attendanceData| <= |sheet.rows| && attendanceData == sheet.rows[..|attendanceData|]
    modifies sheet
    ensures sheet.rows == DeleteProgress(old(sheet.rows), 1, |attendanceData|, classLookupId)
  {
    ghost var before := sheet.rows;
    var n := |attendanceData|;
    var index := 0;
    while index < n - 1
      invariant 0 <= index <= n - 1
      invariant sheet.rows == DeleteProgress(before, n - index, n, classLookupId)
    {
      var row := attendanceData[n - 1 - index];
      assert row == before[n - 1 - index];
      if RecordsClass(row, classLookupId) {
        DropVisited(before, n - 1 - index, n, classLookupId);
        sheet.DeleteRow(n - index);
      } else {
        KeepVisited(before, n - 1 - index, n, classLookupId);
      }
      index := index + 1;
    }
  }

  /**
   * The sheet once the snapshot rows from index `p` to `n` (exclusive) have
   * been visited: the rows above `p` are untouched, the visited ones that
   * record the class are gone.
   */
  ghost function DeleteProgress(rows: Table, p: nat, n: nat, classId: int): Table
    requires p <= n <= |rows|
  {
    rows[..p] + WithoutClass(rows[p..n], classId) + rows[n..]
  }

  /**
   * Visiting the snapshot row at index `p` when it records the class: it
   * still sits at index `p`, and deleting it gives the sheet with one more
   * row visited.
   */
  lemma {:induction false} DropVisited(rows: Table, p: nat, n: nat, classId: int)
    requires p < n <= |rows| && RecordsClass(rows[p], classId)
    ensures var s := DeleteProgress(rows, p + 1, n, classId);
      && p < |s| && s[..p] + s[p + 1..] == DeleteProgress(rows, p, n, classId)
  {
    var front, x, kept, back := rows[..p], rows[p], WithoutClass(rows[p + 1..n], classId), rows[n..];
    WithoutClassStep(rows, p, n, classId);
    assert rows[..p + 1] == front + [x];
    assert DeleteProgress(rows, p + 1, n, classId) == front + [x] + kept + back;
    assert DeleteProgress(rows, p, n, classId) == front + ([] + kept) + back;
    SpliceOut(front, x, kept, back);
  }

  /** Removing the element right after `front` from `front + [x] + kept + back`. */
  lemma {:induction false} SpliceOut(front: Table, x: Row, kept: Table, back: Table)
    ensures var s := front + [x] + kept + back;
      |front| < |s| && s[..|front|] + s[|front| + 1..] == front + ([] + kept) + back
  {
    var s := front + [x] + kept + back;
    assert s[..|front|] == front;
    assert s[|front| + 1..] == kept + back;
  }

  /** Visiting the snapshot row at index `p` when it does not record the class changes nothing. */
  lemma {:induction false} KeepVisited(rows: Table, p: nat, n: nat, classId: int)
    requires p < n <= |rows| && !RecordsClass(rows[p], classId)
    ensures DeleteProgress(rows, p + 1, n, classId) == DeleteProgress(rows, p, n, classId)
  {
    var front, x, kept, back := rows[..p], rows[p], WithoutClass(rows[p + 1..n], classId), rows[n..];
    WithoutClassStep(rows, p, n, classId);
    assert rows[..p + 1] == front + [x];
    assert DeleteProgress(rows, p + 1, n, classId) == front + [x] + kept + back;
    assert DeleteProgress(rows, p, n, classId) == front + ([x] + kept) + back;
  }

  lemma {:induction false} DeleteProgressDone(rows: Table, n: nat, classId: int)
    requires 1 <= n <= |rows| && HasHeader(rows)
    ensures DeleteProgress(rows, 1, n, classId) == AfterDeletes(rows, n, classId)
    ensures var m := AfterDeletes(rows, n, classId); HasHeader(m) && m[0] == rows[0]
  {
  }

  lemma {:induction false} WithoutClassStep(rows: Table, p: nat, n: nat, classId: int)
    requires p < n <= |rows|
    ensures WithoutClass(rows[p..n], classId)
            == (if RecordsClass(rows[p], classId) then [] else [rows[p]]) + WithoutClass(rows[p + 1..n], classId)
  {
    assert rows[p..n][0] == rows[p] && rows[p..n][1..] == rows[p + 1..n];
  }

  /**
   * The append phase: one row `(studentId, classLookupId)` per submitted id,
   * in order, from the row after the last filled student cell on.
   */
  method AppendStudentRows(sheet: Sheet, classLookupId: int, presentStudents: seq<int>)
    requires HasHeader(sheet.rows)
    modifies sheet
    ensures sheet.rows == AppendRows(old(sheet.rows), AppendPoint(old(sheet.rows)), presentStudents, classLookupId)
  {
    var lastStudentRow := LastStudentRow(sheet);
    WriteStudentRows(sheet, lastStudentRow, classLookupId, presentStudents);
  }

  /**
   * `lastStudentRow`: the last occupied row number less how far from the
   * bottom of column B the last filled cell is.
   */
  method LastStudentRow(sheet: Sheet) returns (lastStudentRow: nat)
    requires HasHeader(sheet.rows)
    ensures lastStudentRow == AppendPoint(sheet.rows)
  {
    ghost var rows := sheet.rows;
    var lastRow := sheet.LastRow();
    var studentValues := sheet.StudentColumn(lastRow);
    assert HasHeader(rows);
    AppendPointIs(rows);
    lastStudentRow := lastRow - IndexFromBottom(studentValues);
  }

  /** Writes `(ids[i], classId)` into row number `start + i + 1`, for each `i` in order. */
  method WriteStudentRows(sheet: Sheet, start: nat, classId: int, ids: seq<int>)
    modifies sheet
    ensures sheet.rows == AppendRows(old(sheet.rows), start, ids, classId)
  {
    ghost var before := sheet.rows;
    var i := 0;
    while i < |ids|
      invariant 0 <= i <= |ids|
      invariant sheet.rows == AppendRows(before, start, ids[..i], classId)
    {
      sheet.SetStudentClass(start + i + 1, ids[i], classId);
      AppendRowsStep(before, start, ids, i, classId);
      i := i + 1;
    }
    assert ids[..i] == ids;
  }

  lemma {:induction false} AppendPointIs(rows: Table)
    requires HasHeader(rows)
    ensures AppendPoint(rows) == LastRowOf(rows) - IndexFromBottom(StudentColumnOf(rows, LastRowOf(rows)))
  {
  }

  /** Writing the next id extends the rows written so far by one. */
  lemma {:induction false} AppendRowsStep(rows: Table, start: nat, ids: seq<int>, i: nat, classId: int)
    requires i < |ids|
    ensures AppendRows(rows, start, ids[..i + 1], classId)
            == WriteStudentClass(AppendRows(rows, start, ids[..i], classId), start + i, Num(ids[i]), Num(classId))
  {
    assert ids[..i + 1][..i] == ids[..i];
  }

  // ---------------------------------------------------------------------
  // Properties

  /** The present set reads the rows in order, so it splits where the rows split. */
  lemma {:induction false} ClassStudentsConcat(a: Table, b: Table, classId: int)
    ensures ClassStudents(a + b, classId) == ClassStudents(a, classId) + ClassStudents(b, classId)
  {
    if a != [] {
      ClassStudentsConcat(a[1..], b, classId);
      var head := if RecordsClass(a[0], classId) then [Col(a[0], 1)] else [];
      assert (a + b)[0] == a[0] && (a + b)[1..] == a[1..] + b;
      assert ClassStudents(a + b, classId) == head + ClassStudents(a[1..] + b, classId);
      assert ClassStudents(a, classId) == head + ClassStudents(a[1..], classId);
    } else {
      assert a + b == b;
    }
  }

  lemma {:induction false} NoClassRows(rows: Table, classId: int)
    requires forall k :: 0 <= k < |rows| ==> !RecordsClass(rows[k], classId)
    ensures ClassStudents(rows, classId) == []
  {
    if rows != [] {
      NoClassRows(rows[1..], classId);
    }
  }

  /** Rows that all record the class give their student cells, in order. */
  lemma {:induction false} AllClassRows(rows: Table, classId: int)
    requires forall k :: 0 <= k < |rows| ==> RecordsClass(rows[k], classId)
    ensures ClassStudents(rows, classId) == seq(|rows|, k requires 0 <= k < |rows| => Col(rows[k], 1))
  {
    if rows != [] {
      AllClassRows(rows[1..], classId);
    }
  }

  /** Removing one class's rows leaves the rows of every other class, in order. */
  lemma {:induction false} WithoutClassKeepsOthers(rows: Table, classId: int, other: int)
    requires other != classId
    ensures ClassStudents(WithoutClass(rows, classId), other) == ClassStudents(rows, other)
  {
    if rows != [] {
      WithoutClassKeepsOthers(rows[1..], classId, other);
      var head := if RecordsClass(rows[0], classId) then [] else [rows[0]];
      ClassStudentsConcat(head, WithoutClass(rows[1..], classId), other);
    }
  }

  /**
   * Two tables whose rows agree wherever either records `classId`, and
   * where the longer one's extra rows do not record it, give the same
   * present set.
   */
  lemma {:induction false} SameClassRows(a: Table, b: Table, classId: int)
    requires |a| <= |b|
    requires forall k :: 0 <= k < |a| ==>
               a[k] == b[k] || (!RecordsClass(a[k], classId) && !RecordsClass(b[k], classId))
    requires forall k :: |a| <= k < |b| ==> !RecordsClass(b[k], classId)
    ensures ClassStudents(a, classId) == ClassStudents(b, classId)
  {
    if a == [] {
      NoClassRows(b, classId);
    } else {
      SameClassRows(a[1..], b[1..], classId);
    }
  }

  /**
   * The delete phase: the header row stays, no data row records the class
   * any more, and the rows of every other class stay, in their order.
   */
  lemma {:induction false} DeletePhase(rows: Table, classId: int)
    requires HasHeader(rows)
    ensures var m := AfterDeletes(rows, LastRowOf(rows), classId);
      && m[0] == rows[0]
      && (forall k :: 1 <= k < |m| ==> !RecordsClass(m[k], classId))
      && (forall other :: other != classId ==> PresentIds(m, other) == PresentIds(rows, other))
  {
    var n := LastRowOf(rows);
    var m := AfterDeletes(rows, n, classId);
    var kept := WithoutClass(rows[1..n], classId);
    WithoutClassMembership(rows[1..n], classId);
    assert m == [rows[0]] + kept + rows[n..];
    forall k | 1 <= k < |m|
      ensures !RecordsClass(m[k], classId)
    {
      if k <= |kept| {
        assert m[k] == kept[k - 1] && m[k] in kept;
      } else {
        assert m[k] == rows[n + k - 1 - |kept|];
        UnoccupiedRowIsEmpty(m[k], 2);
      }
    }
    forall other | other != classId
      ensures PresentIds(m, other) == PresentIds(rows, other)
    {
      assert Data(m) == kept + rows[n..];
      assert Data(rows) == rows[1..n] + rows[n..];
      ClassStudentsConcat(kept, rows[n..], other);
      ClassStudentsConcat(rows[1..n], rows[n..], other);
      WithoutClassKeepsOthers(rows[1..n], classId, other);
    }
  }

  /** The submitted ids as the cells the writer puts in column B. */
  function IdCells(ids: seq<int>): seq<Cell>
  {
    seq(|ids|, i requires 0 <= i < |ids| => Num(ids[i]))
  }

  /** The append phase on a table where no data row records the class leaves exactly the new rows for it. */
  lemma {:induction false} AppendGivesIds(m: Table, p: nat, ids: seq<int>, classId: int)
    requires p >= 1
    requires forall k :: 1 <= k < |m| ==> !RecordsClass(m[k], classId)
    ensures PresentIds(AppendRows(m, p, ids, classId), classId) == IdCells(ids)
  {
    var r := AppendRows(m, p, ids, classId);
    AppendedClassRows(m, p, ids, classId);
    if ids == [] {
      if |r| > 0 {
        NoClassSlice(r, 1, |r|, classId);
        assert Data(r) == r[1..|r|];
      }
      assert IdCells(ids) == [];
    } else {
      var e := p + |ids|;
      ClassBlock(r, p, e, classId);
      AppendRowsShape(m, p, ids, classId);
      forall i | 0 <= i < |ids|
        ensures Col(r[p + i], 1) == Num(ids[i])
      {
        assert Col(r[p + i], 1) == Num(ids[p + i - p]);
      }
    }
  }

  /**
   * When the data rows recording a class are exactly those from index `lo`
   * to `hi`, its present set is their student cells in order.
   */
  lemma {:induction false} ClassBlock(r: Table, lo: nat, hi: nat, classId: int)
    requires 1 <= lo <= hi <= |r|
    requires forall k :: 1 <= k < |r| ==> (RecordsClass(r[k], classId) <==> lo <= k < hi)
    ensures PresentIds(r, classId) == seq(hi - lo, k requires 0 <= k < hi - lo => Col(r[lo + k], 1))
  {
    var block := ClassStudents(r[lo..hi], classId);
    assert Data(r) == r[1..lo] + r[lo..hi] + r[hi..];
    assert r[hi..] == r[hi..|r|];
    NoClassSlice(r, 1, lo, classId);
    AllClassSlice(r, lo, hi, classId);
    NoClassSlice(r, hi, |r|, classId);
    ClassStudentsConcat(r[1..lo], r[lo..hi], classId);
    assert ClassStudents(r[1..lo] + r[lo..hi], classId) == block;
    ClassStudentsConcat(r[1..lo] + r[lo..hi], r[hi..], classId);
    assert ClassStudents(Data(r), classId) == block + [];
  }

  /**
   * After the append phase on a table where no data row records the class,
   * a data row records it exactly when it is one of the written rows.
   */
  lemma {:induction false} AppendedClassRows(m: Table, p: nat, ids: seq<int>, classId: int)
    requires p >= 1
    requires forall k :: 1 <= k < |m| ==> !RecordsClass(m[k], classId)
    ensures var r := AppendRows(m, p, ids, classId);
      && (ids != [] ==> p + |ids| <= |r|)
      && (|r| == 0 ==> ids == [])
      && forall k :: 1 <= k < |r| ==>
           (RecordsClass(r[k], classId) <==> p <= k < p + |ids|)
  {
    var r := AppendRows(m, p, ids, classId);
    AppendRowsShape(m, p, ids, classId);
    forall k | 1 <= k < |r|
      ensures RecordsClass(r[k], classId) <==> p <= k < p + |ids|
    {
      if !(p <= k < p + |ids|) && k >= |m| {
        assert r[k] == [];
      }
    }
  }

  lemma {:induction false} NoClassSlice(r: Table, lo: nat, hi: nat, classId: int)
    requires lo <= hi <= |r|
    requires forall k :: lo <= k < hi ==> !RecordsClass(r[k], classId)
    ensures ClassStudents(r[lo..hi], classId) == []
  {
    forall k | 0 <= k < hi - lo
      ensures !RecordsClass(r[lo..hi][k], classId)
    {
      assert r[lo..hi][k] == r[lo + k];
    }
    NoClassRows(r[lo..hi], classId);
  }

  lemma {:induction false} AllClassSlice(r: Table, lo: nat, hi: nat, classId: int)
    requires lo <= hi <= |r|
    requires forall k :: lo <= k < hi ==> RecordsClass(r[k], classId)
    ensures ClassStudents(r[lo..hi], classId) == seq(hi - lo, k requires 0 <= k < hi - lo => Col(r[lo + k], 1))
  {
    forall k | 0 <= k < hi - lo
      ensures RecordsClass(r[lo..hi][k], classId)
    {
      assert r[lo..hi][k] == r[lo + k];
    }
    AllClassRows(r[lo..hi], classId);
  }

  /**
   * Replacement: after a submission the Attendance rows of the class are
   * exactly the submitted students, in the submitted order, and the header
   * row is unchanged.
   */
  lemma {:induction false} SubmitReplaces(rows: Table, classId: int, ids: seq<int>)
    requires HasHeader(rows)
    ensures HasHeader(Submitted(rows, classId, ids))
    ensures Submitted(rows, classId, ids)[0] == rows[0]
    ensures PresentIds(Submitted(rows, classId, ids), classId) == IdCells(ids)
  {
    DeletePhase(rows, classId);
    var m := AfterDeletes(rows, LastRowOf(rows), classId);
    var p := AppendPoint(m);
    AppendGivesIds(m, p, ids, classId);
    AppendRowsShape(m, p, ids, classId);
    assert AppendRows(m, p, ids, classId)[0] == m[0];
  }

  /** Submitting again for the same class leaves exactly the second list, with nothing left of the first. */
  lemma {:induction false} Resubmission(rows: Table, classId: int, first: seq<int>, second: seq<int>)
    requires HasHeader(rows)
    ensures HasHeader(Submitted(rows, classId, first))
    ensures PresentIds(Submitted(Submitted(rows, classId, first), classId, second), classId) == IdCells(second)
  {
    SubmitReplaces(rows, classId, first);
    SubmitReplaces(Submitted(rows, classId, first), classId, second);
  }

  /** The append phase keeps the rows of another class that all sit above the append point. */
  lemma {:induction false} AppendKeepsOthers(m: Table, p: nat, ids: seq<int>, classId: int, other: int)
    requires p >= 1 && other != classId
    requires forall k :: 1 <= k < |m| && RecordsClass(m[k], other) ==> k < p
    ensures PresentIds(AppendRows(m, p, ids, classId), other) == PresentIds(m, other)
  {
    var r := AppendRows(m, p, ids, classId);
    AppendRowsShape(m, p, ids, classId);
    forall k | 0 <= k < |Data(m)|
      ensures Data(m)[k] == Data(r)[k]
              || (!RecordsClass(Data(m)[k], other) && !RecordsClass(Data(r)[k], other))
    {
      assert Data(m)[k] == m[k + 1] && Data(r)[k] == r[k + 1];
    }
    forall k | |Data(m)| <= k < |Data(r)|
      ensures !RecordsClass(Data(r)[k], other)
    {
      assert Data(r)[k] == r[k + 1];
    }
    SameClassRows(Data(m), Data(r), other);
  }

  /**
   * Nothing else changes: the rows of another class keep their students and
   * their order, provided each of them has a filled student cell (the new
   * rows overwrite columns B:C of rows whose student cell is empty).
   */
  lemma {:induction false} SubmitKeepsOtherClasses(rows: Table, classId: int, ids: seq<int>, other: int)
    requires HasHeader(rows) && other != classId
    requires forall k :: 1 <= k < |rows| && RecordsClass(rows[k], other) ==> SheetCell(rows[k], 1) != Empty
    ensures PresentIds(Submitted(rows, classId, ids), other) == PresentIds(rows, other)
  {
    DeletePhase(rows, classId);
    var m := AfterDeletes(rows, LastRowOf(rows), classId);
    var p := AppendPoint(m);
    AfterDeletesRows(rows, LastRowOf(rows), classId);
    // Every row of the other class still has its student cell, so it sits above the append point.
    forall k | 1 <= k < |m| && RecordsClass(m[k], other)
      ensures k < p
    {
      var j :| 0 <= j < |rows[1..]| && rows[1..][j] == m[k];
      assert rows[j + 1] == m[k];
    }
    AppendKeepsOthers(m, p, ids, classId, other);
  }

  /** Every data row left by the delete phase is a data row of the table before it. */
  lemma {:induction false} AfterDeletesRows(rows: Table, n: nat, classId: int)
    requires 1 <= n <= |rows|
    ensures var m := AfterDeletes(rows, n, classId);
      forall k :: 1 <= k < |m| ==> m[k] in rows[1..]
  {
    var kept := WithoutClass(rows[1..n], classId);
    WithoutClassMembership(rows[1..n], classId);
    var m := AfterDeletes(rows, n, classId);
    assert m == [rows[0]] + kept + rows[n..];
    forall k | 1 <= k < |m|
      ensures m[k] in rows[1..]
    {
      if k <= |kept| {
        assert m[k] == kept[k - 1];
        assert m[k] in rows[1..n];
      } else {
        assert m[k] == rows[n..][k - 1 - |kept|];
      }
    }
  }

  /**
   * Submitting and then building the roster: a shown student is marked
   * present exactly when the student's id is one of the submitted ids.
   */
  lemma {:induction false} RosterAfterSubmit(rows: Table, students: Table, classes: Table, classId: int, ids: seq<int>, r: seq<RosterEntry>)
    requires HasHeader(rows)
    requires Roster(Submitted(rows, classId, ids), students, classes, classId) == Success(r)
    ensures forall e :: e in r ==> (e.isPresent <==> exists i :: 0 <= i < |ids| && e.id == Num(ids[i]))
  {
    var attendance := Submitted(rows, classId, ids);
    var present := PresentIds(attendance, classId);
    SubmitReplaces(rows, classId, ids);
    RosterContents(attendance, students, classes, classId, r);
    forall e | e in r
      ensures e.isPresent <==> exists i :: 0 <= i < |ids| && e.id == Num(ids[i])
    {
      var k :| 1 <= k < |students| && Shown(students[k], GroupKey(classes, classId), present)
               && e == EntryFor(students[k], present);
      IncludesIdCells(ids, e.id);
    }
  }

  /** A cell is among the written ids iff it is the number of one of them. */
  lemma {:induction false} IncludesIdCells(ids: seq<int>, id: Cell)
    ensures Includes(IdCells(ids), id) <==> exists i :: 0 <= i < |ids| && id == Num(ids[i])
  {
    if Includes(IdCells(ids), id) {
      var i :| 0 <= i < |IdCells(ids)| && StrictEq(IdCells(ids)[i], id);
      assert id == Num(ids[i]);
    }
    if exists i :: 0 <= i < |ids| && id == Num(ids[i]) {
      var i :| 0 <= i < |ids| && id == Num(ids[i]);
      assert StrictEq(IdCells(ids)[i], id);
    }
  }
}

=== FILE: cells.dfy ===
/**
 * Values read from a spreadsheet, and the few JavaScript operations the
 * attendance code applies to them: truthiness, strict equality, string
 * conversion, ASCII upper-casing and string comparison.
 */
module Cells {

  datatype Option<T> = None | Some(value: T)

  /**
   * One cell value as the script sees it. A sheet read never yields
   * `Undefined`; it is what array destructuring gives past a row's end.
   * An empty cell reads as `Str("")`. Dates are whole day numbers.
   */
  datatype Cell = Undefined | Num(n: int) | Str(s: string) | Bool(b: bool) | Date(day: int)

  type Row = seq<Cell>
  type Table = seq<Row>

  /** Column `i` of a row, as `const [a, b, ...] = row` reads it. */
  function Col(row: Row, i: nat): Cell
  {
    if i < |row| then row[i] else Undefined
  }

  /** The rows after the header, as `data.slice(1)` gives them. */
  function Data(table: Table): (rows: Table)
    ensures |rows| == if |table| == 0 then 0 else |table| - 1
    ensures forall k :: 0 <= k < |rows| ==> rows[k] == table[k + 1]
  {
    if |table| == 0 then [] else table[1..]
  }

  /** JavaScript truthiness of a cell value: all but the falsy values are truthy. */
  predicate Truthy(c: Cell)
    ensures Truthy(c) <==> c !in {Undefined, Num(0), Str(""), Bool(false)}
  {
    match c
    case Undefined => false
    case Num(n) => n != 0
    case Str(s) => s != ""
    case Bool(b) => b
    case Date(_) => true
  }

  /**
   * JavaScript `===` (and `includes`). Two dates are two distinct objects,
   * so they are never strictly equal.
   */
  predicate StrictEq(a: Cell, b: Cell)
    ensures StrictEq(a, b) <==> a == b && !a.Date?
  {
    match (a, b)
    case (Undefined, Undefined) => true
    case (Num(x), Num(y)) => x == y
    case (Str(x), Str(y)) => x == y
    case (Bool(x), Bool(y)) => x == y
    case _ => false
  }

  function DigitChar(d: nat): char
    requires d < 10
  {
    "0123456789"[d]
  }

  function NatText(n: nat): (s: string)
    ensures |s| > 0
    decreases n
  {
    if n < 10 then [DigitChar(n)] else NatText(n / 10) + [DigitChar(n % 10)]
  }

  /** Decimal text of an integer, as `${n}` writes it. */
  function IntText(n: int): string
  {
    if n < 0 then "-" + NatText(-n) else NatText(n)
  }

  /**
   * `${c}` for a cell; `dateString` is the engine's (time-zone dependent)
   * `Date.prototype.toString`.
   */
  function CellText(c: Cell, dateString: int -> string): string
  {
    match c
    case Undefined => "undefined"
    case Num(n) => IntText(n)
    case Str(s) => s
    case Bool(b) => if b then "true" else "false"
    case Date(d) => dateString(d)
  }

  /** `toUpperCase` restricted to the ASCII letters. */
  function UpperChar(ch: char): char
  {
    if 'a' <= ch <= 'z' then (ch as int - 32) as char else ch
  }

  function Upper(s: string): (u: string)
    ensures |u| == |s|
    ensures forall i :: 0 <= i < |s| ==> u[i] == UpperChar(s[i])
  {
    seq(|s|, i requires 0 <= i < |s| => UpperChar(s[i]))
  }

  /** JavaScript's `a < b` on strings: lexicographic by character code. */
  predicate Less(a: string, b: string)
    decreases |a|
  {
    if a == [] then b != []
    else if b == [] then false
    else if a[0] != b[0] then a[0] < b[0]
    else Less(a[1..], b[1..])
  }

  lemma {:induction false} LessIrreflexive(a: string)
    ensures !Less(a, a)
    decreases |a|
  {
    if a != [] {
      LessIrreflexive(a[1..]);
    }
  }

  lemma {:induction false} LessTrichotomy(a: string, b: string)
    ensures Less(a, b) || a == b || Less(b, a)
    decreases |a|
  {
    if a != [] && b != [] && a[0] == b[0] {
      LessTrichotomy(a[1..], b[1..]);
      if a[1..] == b[1..] {
        assert a == [a[0]] + a[1..] && b == [b[0]] + b[1..];
      }
    }
  }

  lemma {:induction false} LessTransitive(a: string, b: string, c: string)
    requires Less(a, b) && Less(b, c)
    ensures Less(a, c)
    decreases |a|
  {
    if a != [] && a[0] == b[0] && b[0] == c[0] {
      LessTransitive(a[1..], b[1..], c[1..]);
    }
  }

  lemma LessAsymmetric(a: string, b: string)
    requires Less(a, b)
    ensures !Less(b, a)
  {
    if Less(b, a) {
      LessTransitive(a, b, a);
      LessIrreflexive(a);
    }
  }
}

=== FILE: class_catalog.dfy ===
/**
 * The class catalog (`getClasses`): every real class row of the Classes
 * table becomes a catalog entry, filed under upcoming (on or after today)
 * or prior, and each list is kept sorted by date as entries are added.
 *
 * Classes columns: 0 id, 2 date, 3 price, 4 class group.
 */
module ClassCatalog {
  import opened Cells

  /**
   * A catalog entry. `day` stands for the entry's date: `getClasses` keeps the
   * display string and parses it back to the same day when sorting; `None`
   * is a date the engine cannot read ("Invalid Date").
   */
  datatype ClassEntry = ClassEntry(id: Cell, day: Option<int>, price: Cell, classGroup: Cell, displayName: string)

  /** The locale- and time-zone-dependent date formatting of the engine. */
  datatype Locale = Locale(localeDate: int -> string, dateString: int -> string)

  /** The day `new Date(c)` denotes; only a date cell is read as a date. */
  function DayOf(c: Cell): Option<int>
  {
    if c.Date? then Some(c.day) else None
  }

  /** A row with both a class group and a date; the others are placeholders. */
  predicate IsClassRow(row: Row)
  {
    Truthy(Col(row, 4)) && Truthy(Col(row, 2))
  }

  /** `classDate >= today`; an unreadable date compares as NaN, so never. */
  predicate IsUpcomingDay(day: Option<int>, today: int)
  {
    day.Some? && day.value >= today
  }

  function DisplayDate(day: Option<int>, locale: Locale): string
  {
    match day
    case Some(d) => locale.localeDate(d)
    case None => "Invalid Date"
  }

  /** The entry `getClasses` pushes for a class row. */
  function EntryOf(row: Row, locale: Locale): ClassEntry
  {
    var day := DayOf(Col(row, 2));
    var displayDate := DisplayDate(day, locale);
    ClassEntry(Col(row, 0), day, Col(row, 3), Col(row, 4),
               displayDate + " - " + CellText(Col(row, 4), locale.dateString))
  }

  /** The entries of all class rows of `rows`, in row order. */
  function Entries(rows: Table, locale: Locale): seq<ClassEntry>
  {
    if rows == [] then []
    else
      var last := rows[|rows| - 1];
      Entries(rows[..|rows| - 1], locale) + (if IsClassRow(last) then [EntryOf(last, locale)] else [])
  }

  /**
   * The entries of the class rows of `rows` that go to the upcoming list
   * (`upcoming` true) or to the prior list (`upcoming` false), in row order.
   */
  function Bucket(rows: Table, today: int, locale: Locale, upcoming: bool): seq<ClassEntry>
  {
    if rows == [] then []
    else Bucket(rows[..|rows| - 1], today, locale, upcoming) + Filed(rows[|rows| - 1], today, locale, upcoming)
  }

  /** What one row adds to the upcoming (or the prior) list: its entry, or nothing. */
  function Filed(row: Row, today: int, locale: Locale, upcoming: bool): seq<ClassEntry>
  {
    var e := EntryOf(row, locale);
    if IsClassRow(row) && IsUpcomingDay(e.day, today) == upcoming then [e] else []
  }

  /**
   * `a` may stand before `b`: ascending or descending by day. The comparator in
   * `getClasses` gives no consistent answer for an unreadable date, so an
   * entry without a day may stand anywhere.
   */
  predicate InOrder(a: ClassEntry, b: ClassEntry, ascending: bool)
  {
    a.day.Some? && b.day.Some? ==>
      if ascending then a.day.value <= b.day.value else a.day.value >= b.day.value
  }

  predicate Sorted(list: seq<ClassEntry>, ascending: bool)
  {
    forall i, j :: 0 <= i < j < |list| ==> InOrder(list[i], list[j], ascending)
  }

  /** `x` must stand after the dated entry `e`. */
  predicate StrictlyAfter(x: ClassEntry, e: ClassEntry, ascending: bool)
    requires e.day.Some?
  {
    x.day.Some? && if ascending then x.day.value > e.day.value else x.day.value < e.day.value
  }

  /** Every entry has a readable date. */
  predicate AllDated(list: seq<ClassEntry>)
  {
    forall x :: x in list ==> x.day.Some?
  }

  /**
   * `list.push(e); list.sort(...)`. The result holds exactly the old entries
   * and `e`. The comparator is consistent only on readable dates, so order
   * is promised only when every entry, `e` included, has one: a list in
   * date order then stays in date order.
   */
  method Insert(list: seq<ClassEntry>, e: ClassEntry, ascending: bool) returns (r: seq<ClassEntry>)
    requires AllDated(list) ==> Sorted(list, ascending)
    ensures multiset(r) == multiset(list) + multiset{e}
    ensures AllDated(r) <==> AllDated(list) && e.day.Some?
    ensures AllDated(r) ==> Sorted(r, ascending)
  {
    if e.day.None? {
      r := list + [e];
      DatedMultiset(r, list + [e]);
      return;
    }
    var p := 0;
    while p < |list| && !StrictlyAfter(list[p], e, ascending)
      invariant 0 <= p <= |list|
      invariant forall i :: 0 <= i < p ==> InOrder(list[i], e, ascending)
    {
      p := p + 1;
    }
    r := list[..p] + [e] + list[p..];
    assert list == list[..p] + list[p..];
    DatedMultiset(r, list + [e]);
    if AllDated(list) {
      forall j | p <= j < |list|
        ensures InOrder(e, list[j], ascending)
      {
        assert StrictlyAfter(list[p], e, ascending);
        assert InOrder(list[p], list[j], ascending);
      }
      SplicedSorted(list, e, p, ascending);
    }
  }

  /** Two lists with the same entries are both fully dated or both not. */
  lemma {:induction false} DatedMultiset(a: seq<ClassEntry>, b: seq<ClassEntry>)
    requires multiset(a) == multiset(b)
    ensures AllDated(a) <==> AllDated(b)
  {
    forall x | x in a
      ensures x in b
    {
      assert x in multiset(a);
    }
    forall x | x in b
      ensures x in a
    {
      assert x in multiset(b);
    }
  }

  /** Placing `e` at position `p` of a sorted list keeps it sorted when `e` fits there. */
  lemma SplicedSorted(list: seq<ClassEntry>, e: ClassEntry, p: nat, ascending: bool)
    requires p <= |list| && Sorted(list, ascending)
    requires forall i :: 0 <= i < p ==> InOrder(list[i], e, ascending)
    requires forall j :: p <= j < |list| ==> InOrder(e, list[j], ascending)
    ensures Sorted(list[..p] + [e] + list[p..], ascending)
  {
    var r := list[..p] + [e] + list[p..];
    forall i, j | 0 <= i < j < |r|
      ensures InOrder(r[i], r[j], ascending)
    {
      if j < p {
        assert r[i] == list[i] && r[j] == list[j];
      } else if i < p && j == p {
        assert r[i] == list[i] && r[j] == e;
      } else if i < p {
        assert r[i] == list[i] && r[j] == list[j - 1];
      } else if i == p {
        assert r[i] == e && r[j] == list[j - 1];
      } else {
        assert r[i] == list[i - 1] && r[j] == list[j - 1];
      }
    }
  }

  /**
   * `getClasses` on the values of the Classes table: the header row is
   * skipped and every class row is filed under upcoming or prior. Upcoming
   * classes all have readable dates and come soonest first; prior classes
   * come latest first whenever every class row has a readable date (an
   * unreadable one files as prior, and then the order is unspecified).
   */
  method GetClasses(classesData: Table, today: int, locale: Locale)
    returns (upcomingClasses: seq<ClassEntry>, priorClasses: seq<ClassEntry>)
    ensures AllDated(upcomingClasses) && Sorted(upcomingClasses, true)
    ensures AllDated(priorClasses) <==> ClassRowsDated(Data(classesData))
    ensures AllDated(priorClasses) ==> Sorted(priorClasses, false)
    ensures multiset(upcomingClasses) == multiset(Bucket(Data(classesData), today, locale, true))
    ensures multiset(priorClasses) == multiset(Bucket(Data(classesData), today, locale, false))
  {
    var rows := Data(classesData);
    upcomingClasses, priorClasses := [], [];
    var k := 0;
    while k < |rows|
      invariant 0 <= k <= |rows|
      invariant AllDated(upcomingClasses) && Sorted(upcomingClasses, true)
      invariant AllDated(priorClasses) ==> Sorted(priorClasses, false)
      invariant multiset(upcomingClasses) == multiset(Bucket(rows[..k], today, locale, true))
      invariant multiset(priorClasses) == multiset(Bucket(rows[..k], today, locale, false))
    {
      BucketStep(rows, k, today, locale, true);
      BucketStep(rows, k, today, locale, false);
      upcomingClasses, priorClasses := FileRow(upcomingClasses, priorClasses, rows[k], today, locale);
      k := k + 1;
    }
    assert rows[..k] == rows;
    DatedMultiset(priorClasses, Bucket(rows, today, locale, false));
    PriorDated(rows, today, locale);
  }

  /** One step of the `reduce` in `getClasses`: file one row of the Classes table. */
  method FileRow(upcoming: seq<ClassEntry>, prior: seq<ClassEntry>, row: Row, today: int, locale: Locale)
    returns (upcoming': seq<ClassEntry>, prior': seq<ClassEntry>)
    requires AllDated(upcoming) && Sorted(upcoming, true)
    requires AllDated(prior) ==> Sorted(prior, false)
    ensures AllDated(upcoming') && Sorted(upcoming', true)
    ensures AllDated(prior') ==> Sorted(prior', false)
    ensures multiset(upcoming') == multiset(upcoming) + multiset(Filed(row, today, locale, true))
    ensures multiset(prior') == multiset(prior) + multiset(Filed(row, today, locale, false))
  {
    upcoming', prior' := upcoming, prior;
    if IsClassRow(row) {
      var entry := EntryOf(row, locale);
      if IsUpcomingDay(entry.day, today) {
        upcoming' := Insert(upcoming, entry, true);
      } else {
        prior' := Insert(prior, entry, false);
      }
    }
  }

  lemma BucketStep(rows: Table, k: nat, today: int, locale: Locale, upcoming: bool)
    requires k < |rows|
    ensures Bucket(rows[..k + 1], today, locale, upcoming)
            == Bucket(rows[..k], today, locale, upcoming) + Filed(rows[k], today, locale, upcoming)
  {
    assert rows[..k + 1][..k] == rows[..k];
  }

  /** `e` is what the class row `row` adds to the upcoming (or prior) list. */
  predicate FiledFrom(row: Row, e: ClassEntry, today: int, locale: Locale, upcoming: bool)
  {
    IsClassRow(row) && e == EntryOf(row, locale) && IsUpcomingDay(e.day, today) == upcoming
  }

  lemma {:induction false} FiledMembership(row: Row, e: ClassEntry, today: int, locale: Locale, upcoming: bool)
    ensures e in Filed(row, today, locale, upcoming) <==> FiledFrom(row, e, today, locale, upcoming)
  {
  }

  /** An entry is in a bucket iff it is the entry of a class row classified that way. */
  lemma {:induction false} BucketMembership(rows: Table, today: int, locale: Locale, upcoming: bool, e: ClassEntry)
    ensures e in Bucket(rows, today, locale, upcoming) <==>
      exists k :: 0 <= k < |rows| && FiledFrom(rows[k], e, today, locale, upcoming)
  {
    if e in Bucket(rows, today, locale, upcoming) {
      var k := BucketSource(rows, today, locale, upcoming, e);
    }
    if exists k :: 0 <= k < |rows| && FiledFrom(rows[k], e, today, locale, upcoming) {
      var k :| 0 <= k < |rows| && FiledFrom(rows[k], e, today, locale, upcoming);
      BucketHolds(rows, today, locale, upcoming, e, k);
    }
  }

  /** The row an entry of a bucket comes from. */
  lemma {:induction false} BucketSource(rows: Table, today: int, locale: Locale, upcoming: bool, e: ClassEntry)
    returns (k: nat)
    requires e in Bucket(rows, today, locale, upcoming)
    ensures k < |rows| && FiledFrom(rows[k], e, today, locale, upcoming)
  {
    var n := |rows| - 1;
    FiledMembership(rows[n], e, today, locale, upcoming);
    if e in Bucket(rows[..n], today, locale, upcoming) {
      k := BucketSource(rows[..n], today, locale, upcoming, e);
      assert rows[..n][k] == rows[k];
    } else {
      k := n;
    }
  }

  /** A class row's entry is in the bucket it is classified into. */
  lemma {:induction false} BucketHolds(rows: Table, today: int, locale: Locale, upcoming: bool, e: ClassEntry, k: nat)
    requires k < |rows| && FiledFrom(rows[k], e, today, locale, upcoming)
    ensures e in Bucket(rows, today, locale, upcoming)
  {
    var n := |rows| - 1;
    if k == n {
      FiledMembership(rows[n], e, today, locale, upcoming);
    } else {
      assert rows[..n][k] == rows[k];
      BucketHolds(rows[..n], today, locale, upcoming, e, k);
    }
  }

  /**
   * Upcoming and prior together hold every class row's entry exactly once:
   * as multisets they split the entries of all class rows.
   */
  lemma {:induction false} BucketsPartition(rows: Table, today: int, locale: Locale)
    ensures multiset(Bucket(rows, today, locale, true)) + multiset(Bucket(rows, today, locale, false))
            == multiset(Entries(rows, locale))
    ensures |Bucket(rows, today, locale, true)| + |Bucket(rows, today, locale, false)| == |Entries(rows, locale)|
  {
    if rows != [] {
      BucketsPartition(rows[..|rows| - 1], today, locale);
    }
  }

  /** `e` is the entry of the class row `row`. */
  predicate EntryFrom(row: Row, e: ClassEntry, locale: Locale)
  {
    IsClassRow(row) && e == EntryOf(row, locale)
  }

  /** Entries come from the class rows only, one per class row. */
  lemma {:induction false} EntriesMembership(rows: Table, locale: Locale, e: ClassEntry)
    ensures e in Entries(rows, locale) <==> exists k :: 0 <= k < |rows| && EntryFrom(rows[k], e, locale)
  {
    if e in Entries(rows, locale) {
      var k := EntrySource(rows, locale, e);
    }
    if exists k :: 0 <= k < |rows| && EntryFrom(rows[k], e, locale) {
      var k :| 0 <= k < |rows| && EntryFrom(rows[k], e, locale);
      EntryHolds(rows, locale, e, k);
    }
  }

  /** The class row an entry comes from. */
  lemma {:induction false} EntrySource(rows: Table, locale: Locale, e: ClassEntry) returns (k: nat)
    requires e in Entries(rows, locale)
    ensures k < |rows| && EntryFrom(rows[k], e, locale)
  {
    var n := |rows| - 1;
    if e in Entries(rows[..n], locale) {
      k := EntrySource(rows[..n], locale, e);
      assert rows[..n][k] == rows[k];
    } else {
      k := n;
    }
  }

  /** Every class row has its entry among the entries. */
  lemma {:induction false} EntryHolds(rows: Table, locale: Locale, e: ClassEntry, k: nat)
    requires k < |rows| && EntryFrom(rows[k], e, locale)
    ensures e in Entries(rows, locale)
  {
    var n := |rows| - 1;
    if k < n {
      assert rows[..n][k] == rows[k];
      EntryHolds(rows[..n], locale, e, k);
    }
  }

  /** Every class row (one with a class group and a date) has a readable date. */
  predicate ClassRowsDated(rows: Table)
  {
    forall k :: 0 <= k < |rows| && IsClassRow(rows[k]) ==> DayOf(Col(rows[k], 2)).Some?
  }

  /**
   * The prior list holds an entry without a readable date exactly when some
   * class row's date cell is not a date: such a row never counts as upcoming.
   */
  lemma {:induction false} PriorDated(rows: Table, today: int, locale: Locale)
    ensures AllDated(Bucket(rows, today, locale, false)) <==> ClassRowsDated(rows)
  {
    if rows != [] {
      var n := |rows| - 1;
      PriorDated(rows[..n], today, locale);
      assert forall k :: 0 <= k < n ==> rows[..n][k] == rows[k];
      var front := Bucket(rows[..n], today, locale, false);
      var last := Filed(rows[n], today, locale, false);
      assert AllDated(front + last) <==> AllDated(front) && AllDated(last) by {
        assert forall x :: x in front + last <==> x in front || x in last;
      }
    }
  }

  /** A class dated today is upcoming (the boundary is inclusive); an earlier one is prior. */
  lemma TodayIsUpcoming(rows: Table, today: int, locale: Locale, k: nat)
    requires k < |rows| && IsClassRow(rows[k]) && Col(rows[k], 2).Date?
    ensures Col(rows[k], 2).day >= today ==> EntryOf(rows[k], locale) in Bucket(rows, today, locale, true)
    ensures Col(rows[k], 2).day < today ==> EntryOf(rows[k], locale) in Bucket(rows, today, locale, false)
  {
    var e := EntryOf(rows[k], locale);
    BucketMembership(rows, today, locale, IsUpcomingDay(e.day, today), e);
  }

  /** A row with an empty class group or an empty date adds no entry at all. */
  lemma {:induction false} PlaceholderRowsAddNothing(rows: Table, row: Row, today: int, locale: Locale)
    requires !Truthy(Col(row, 4)) || !Truthy(Col(row, 2))
    ensures Entries(rows + [row], locale) == Entries(rows, locale)
    ensures Bucket(rows + [row], today, locale, true) == Bucket(rows, today, locale, true)
    ensures Bucket(rows + [row], today, locale, false) == Bucket(rows, today, locale, false)
  {
    assert (rows + [row])[..|rows|] == rows;
  }

  /** The display name of an entry is its display date, " - ", then its class group. */
  lemma DisplayNameFormat(row: Row, locale: Locale)
    requires IsClassRow(row) && Col(row, 2).Date? && Col(row, 4).Str?
    ensures EntryOf(row, locale).displayName == locale.localeDate(Col(row, 2).day) + " - " + Col(row, 4).s
    ensures EntryOf(row, locale).id == Col(row, 0) && EntryOf(row, locale).price == Col(row, 3)
    ensures EntryOf(row, locale).classGroup == Col(row, 4)
  {
  }
}

=== FILE: roster_builder.dfy ===
/**
 * The roster builder (`getAttendanceForClass`): a join of the Attendance,
 * Classes and Students tables giving the students of one class, each marked
 * present or not, ordered by upper-cased name.
 *
 * Attendance columns: 1 student id, 2 class id.
 * Classes columns: 0 id, 1 class group key.
 * Students columns: 0 id, 1 name, 3 class group key, 4 active flag.
 */
module RosterBuilder {
  import opened Cells

  datatype RosterEntry = RosterEntry(id: Cell, name: Cell, isPresent: bool)

  datatype Result<T, E> = Success(value: T) | Failure(error: E)

  /**
   * The sort comparator calls `toUpperCase` on each name; on a name that
   * is not a string that throws a TypeError.
   */
  datatype RosterError = NameNotText

  /** An Attendance row recording the class `classId`. */
  predicate RecordsClass(row: Row, classId: int)
  {
    StrictEq(Col(row, 2), Num(classId))
  }

  /** The student cells of the rows of `rows` that record `classId`, in row order. */
  function ClassStudents(rows: Table, classId: int): seq<Cell>
  {
    if rows == [] then []
    else (if RecordsClass(rows[0], classId) then [Col(rows[0], 1)] else []) + ClassStudents(rows[1..], classId)
  }

  /** `studentsPresent`: the student ids the Attendance table records for the class. */
  function PresentIds(attendance: Table, classId: int): seq<Cell>
  {
    ClassStudents(Data(attendance), classId)
  }

  /** `list.includes(id)`. */
  predicate Includes(list: seq<Cell>, id: Cell)
  {
    exists i :: 0 <= i < |list| && StrictEq(list[i], id)
  }

  /** A Classes row whose id is `classId`. */
  predicate IsRowOfClass(row: Row, classId: int)
  {
    StrictEq(Col(row, 0), Num(classId))
  }

  /**
   * `find`: the index in `rows` of the first row, at `from` or later, whose
   * id is `classId`.
   */
  function FindClass(rows: Table, classId: int, from: nat): (k: Option<nat>)
    requires from <= |rows|
    ensures k.Some? ==> from <= k.value < |rows| && IsRowOfClass(rows[k.value], classId)
                        && forall j :: from <= j < k.value ==> !IsRowOfClass(rows[j], classId)
    ensures k.None? ==> forall j :: from <= j < |rows| ==> !IsRowOfClass(rows[j], classId)
    decreases |rows| - from
  {
    if from == |rows| then None
    else if IsRowOfClass(rows[from], classId) then Some(from)
    else FindClass(rows, classId, from + 1)
  }

  /**
   * `classGroupId`: column 1 of the first Classes row for the class, or
   * `undefined` when there is none (`find(...) || []`).
   */
  function GroupKey(classes: Table, classId: int): Cell
  {
    var rows := Data(classes);
    match FindClass(rows, classId, 0)
    case Some(k) => Col(rows[k], 1)
    case None => Undefined
  }

  /** The student is shown: same class group, and present or active. */
  predicate Shown(student: Row, groupKey: Cell, present: seq<Cell>)
  {
    StrictEq(Col(student, 3), groupKey) && (Includes(present, Col(student, 0)) || Truthy(Col(student, 4)))
  }

  function EntryFor(student: Row, present: seq<Cell>): RosterEntry
  {
    RosterEntry(Col(student, 0), Col(student, 1), Includes(present, Col(student, 0)))
  }

  /** The `reduce` over the Students rows: the shown students, in row order. */
  function Candidates(students: Table, groupKey: Cell, present: seq<Cell>): seq<RosterEntry>
  {
    if students == [] then []
    else
      (if Shown(students[0], groupKey, present) then [EntryFor(students[0], present)] else [])
      + Candidates(students[1..], groupKey, present)
  }

  /** The comparator's key: the upper-cased name. */
  function NameKey(e: RosterEntry): string
  {
    if e.name.Str? then Upper(e.name.s) else []
  }

  /** `a` may stand before `b`: the comparator does not return 1 for them. */
  predicate NameLe(a: RosterEntry, b: RosterEntry)
  {
    !Less(NameKey(b), NameKey(a))
  }

  predicate SortedByName(list: seq<RosterEntry>)
  {
    forall i, j :: 0 <= i < j < |list| ==> NameLe(list[i], list[j])
  }

  lemma {:induction false} NameLeTotal(a: RosterEntry, b: RosterEntry)
    ensures NameLe(a, b) || NameLe(b, a)
  {
    if Less(NameKey(b), NameKey(a)) {
      LessAsymmetric(NameKey(b), NameKey(a));
    }
  }

  lemma {:induction false} NameLeTransitive(a: RosterEntry, b: RosterEntry, c: RosterEntry)
    requires NameLe(a, b) && NameLe(b, c)
    ensures NameLe(a, c)
  {
    LessTrichotomy(NameKey(a), NameKey(b));
    LessTrichotomy(NameKey(b), NameKey(c));
    if Less(NameKey(a), NameKey(b)) && Less(NameKey(b), NameKey(c)) {
      LessTransitive(NameKey(a), NameKey(b), NameKey(c));
      LessAsymmetric(NameKey(a), NameKey(c));
    } else if Less(NameKey(a), NameKey(b)) {
      LessAsymmetric(NameKey(a), NameKey(c));
    } else if Less(NameKey(b), NameKey(c)) {
      LessAsymmetric(NameKey(a), NameKey(c));
    } else {
      LessIrreflexive(NameKey(a));
    }
  }

  /** Insert `e` in front of the first entry whose name is not smaller (keeps equal names in input order). */
  function InsertByName(e: RosterEntry, list: seq<RosterEntry>): (r: seq<RosterEntry>)
    requires SortedByName(list)
    ensures SortedByName(r)
    ensures multiset(r) == multiset(list) + multiset{e}
  {
    if list == [] || NameLe(e, list[0]) then
      SortedCons(e, list);
      [e] + list
    else
      SortedTail(list);
      var rest := InsertByName(e, list[1..]);
      InsertedBehindHead(list, e, rest);
      [list[0]] + rest
  }

  lemma {:induction false} SortedTail(list: seq<RosterEntry>)
    requires list != [] && SortedByName(list)
    ensures SortedByName(list[1..])
  {
    forall i, j | 0 <= i < j < |list| - 1
      ensures NameLe(list[1..][i], list[1..][j])
    {
      assert list[1..][i] == list[i + 1] && list[1..][j] == list[j + 1];
    }
  }

  /**
   * When `e` does not go before the head of a sorted list, the head followed
   * by the rest with `e` inserted is sorted and holds the list and `e`.
   */
  lemma {:induction false} InsertedBehindHead(list: seq<RosterEntry>, e: RosterEntry, rest: seq<RosterEntry>)
    requires list != [] && SortedByName(list) && !NameLe(e, list[0])
    requires SortedByName(rest) && multiset(rest) == multiset(list[1..]) + multiset{e}
    ensures SortedByName([list[0]] + rest)
    ensures multiset([list[0]] + rest) == multiset(list) + multiset{e}
  {
    assert list == [list[0]] + list[1..];
    if rest != [] {
      assert rest[0] in multiset(rest);
      if rest[0] == e {
        NameLeTotal(e, list[0]);
      } else {
        assert rest[0] in multiset(list[1..]);
        var j :| 0 <= j < |list[1..]| && list[1..][j] == rest[0];
        assert list[j + 1] == rest[0];
      }
    }
    SortedCons(list[0], rest);
  }

  /** Putting `x` in front of a sorted list whose first entry it precedes keeps it sorted. */
  lemma {:induction false} SortedCons(x: RosterEntry, list: seq<RosterEntry>)
    requires SortedByName(list)
    requires list == [] || NameLe(x, list[0])
    ensures SortedByName([x] + list)
  {
    var r := [x] + list;
    forall i, j | 0 <= i < j < |r|
      ensures NameLe(r[i], r[j])
    {
      if i == 0 {
        assert r[1] == list[0] && r[j] == list[j - 1];
        if j > 1 {
          NameLeTransitive(x, list[0], r[j]);
        }
      } else {
        assert r[i] == list[i - 1] && r[j] == list[j - 1];
      }
    }
  }

  /** The result of the (stable) `sort` in `getAttendanceForClass` by upper-cased name. */
  function SortByName(list: seq<RosterEntry>): (r: seq<RosterEntry>)
    ensures SortedByName(r)
    ensures multiset(r) == multiset(list)
  {
    if list == [] then []
    else
      assert list == [list[0]] + list[1..];
      InsertByName(list[0], SortByName(list[1..]))
  }

  /** Some candidate's name is not a string, so the comparator throws. */
  predicate HasNonTextName(list: seq<RosterEntry>)
  {
    exists i :: 0 <= i < |list| && !list[i].name.Str?
  }

  /**
   * `getAttendanceForClass` on the values of the three tables. The sort
   * compares every element at least once when there are two or more.
   */
  function Roster(attendance: Table, students: Table, classes: Table, classId: int): Result<seq<RosterEntry>, RosterError>
  {
    var present := PresentIds(attendance, classId);
    var candidates := Candidates(Data(students), GroupKey(classes, classId), present);
    if |candidates| >= 2 && HasNonTextName(candidates) then Failure(NameNotText)
    else Success(SortByName(candidates))
  }

  // ---------------------------------------------------------------------
  // Properties

  lemma {:induction false} IncludesConcat(a: seq<Cell>, b: seq<Cell>, id: Cell)
    ensures Includes(a + b, id) <==> Includes(a, id) || Includes(b, id)
  {
    if Includes(a + b, id) {
      var i :| 0 <= i < |a + b| && StrictEq((a + b)[i], id);
      if i >= |a| {
        assert b[i - |a|] == (a + b)[i];
      }
    }
    if Includes(b, id) {
      var i :| 0 <= i < |b| && StrictEq(b[i], id);
      assert (a + b)[|a| + i] == b[i];
    }
    if Includes(a, id) {
      var i :| 0 <= i < |a| && StrictEq(a[i], id);
      assert (a + b)[i] == a[i];
    }
  }

  /** The Attendance row records the student cell `id` for the class. */
  predicate RecordsStudent(row: Row, classId: int, id: Cell)
  {
    RecordsClass(row, classId) && StrictEq(Col(row, 1), id)
  }

  /** A student cell is in the present set iff an Attendance data row records it for the class. */
  lemma {:induction false} ClassStudentsMembership(rows: Table, classId: int, id: Cell)
    ensures Includes(ClassStudents(rows, classId), id) <==>
      exists k :: 0 <= k < |rows| && RecordsStudent(rows[k], classId, id)
  {
    if rows != [] {
      var tail := rows[1..];
      ClassStudentsMembership(tail, classId, id);
      var head := if RecordsClass(rows[0], classId) then [Col(rows[0], 1)] else [];
      IncludesConcat(head, ClassStudents(tail, classId), id);
      assert Includes(head, id) <==> RecordsStudent(rows[0], classId, id) by {
        if RecordsStudent(rows[0], classId, id) {
          assert StrictEq(head[0], id);
        }
        if Includes(head, id) {
          var i :| 0 <= i < |head| && StrictEq(head[i], id);
          assert head[i] == Col(rows[0], 1);
        }
      }
      if exists k :: 0 <= k < |tail| && RecordsStudent(tail[k], classId, id) {
        var k :| 0 <= k < |tail| && RecordsStudent(tail[k], classId, id);
        assert rows[k + 1] == tail[k];
      }
      if exists k :: 0 <= k < |rows| && RecordsStudent(rows[k], classId, id) {
        var k :| 0 <= k < |rows| && RecordsStudent(rows[k], classId, id);
        if k > 0 {
          assert tail[k - 1] == rows[k];
        }
      }
    }
  }

  /** A roster entry stands for exactly the shown students of the Students data rows. */
  lemma {:induction false} CandidatesMembership(students: Table, groupKey: Cell, present: seq<Cell>, e: RosterEntry)
    ensures e in Candidates(students, groupKey, present) <==>
      exists k :: 0 <= k < |students| && Shown(students[k], groupKey, present) && e == EntryFor(students[k], present)
  {
    if students != [] {
      CandidatesMembership(students[1..], groupKey, present, e);
      if e in Candidates(students[1..], groupKey, present) {
        var k :| 0 <= k < |students[1..]| && Shown(students[1..][k], groupKey, present)
                 && e == EntryFor(students[1..][k], present);
        assert students[k + 1] == students[1..][k];
      }
      if exists k :: 0 <= k < |students| && Shown(students[k], groupKey, present) && e == EntryFor(students[k], present) {
        var k :| 0 <= k < |students| && Shown(students[k], groupKey, present) && e == EntryFor(students[k], present);
        if k > 0 {
          assert students[1..][k - 1] == students[k];
        }
      }
    }
  }

  /** A student cell is in the present set iff an Attendance data row (after the header) records it for the class. */
  lemma {:induction false} PresentIdsMembership(attendance: Table, classId: int, id: Cell)
    ensures Includes(PresentIds(attendance, classId), id) <==>
      exists k :: 1 <= k < |attendance| && RecordsClass(attendance[k], classId) && StrictEq(Col(attendance[k], 1), id)
  {
    var rows := Data(attendance);
    ClassStudentsMembership(rows, classId, id);
    if exists j :: 0 <= j < |rows| && RecordsStudent(rows[j], classId, id) {
      var j :| 0 <= j < |rows| && RecordsStudent(rows[j], classId, id);
      assert attendance[j + 1] == rows[j];
    }
    if exists j :: 1 <= j < |attendance| && RecordsClass(attendance[j], classId) && StrictEq(Col(attendance[j], 1), id) {
      var j :| 1 <= j < |attendance| && RecordsClass(attendance[j], classId) && StrictEq(Col(attendance[j], 1), id);
      assert rows[j - 1] == attendance[j];
      assert RecordsStudent(rows[j - 1], classId, id);
    }
  }

  /** An entry is a candidate iff it stands for a shown Students data row (after the header). */
  lemma {:induction false} CandidateOfStudents(students: Table, groupKey: Cell, present: seq<Cell>, e: RosterEntry)
    ensures e in Candidates(Data(students), groupKey, present) <==>
      exists k :: 1 <= k < |students| && Shown(students[k], groupKey, present) && e == EntryFor(students[k], present)
  {
    var rows := Data(students);
    CandidatesMembership(rows, groupKey, present, e);
    if e in Candidates(rows, groupKey, present) {
      var k :| 0 <= k < |rows| && Shown(rows[k], groupKey, present) && e == EntryFor(rows[k], present);
      assert students[k + 1] == rows[k];
    }
    if exists k :: 1 <= k < |students| && Shown(students[k], groupKey, present) && e == EntryFor(students[k], present) {
      var k :| 1 <= k < |students| && Shown(students[k], groupKey, present) && e == EntryFor(students[k], present);
      assert rows[k - 1] == students[k];
    }
  }

  /**
   * On success the roster is sorted by upper-cased name, holds exactly the
   * shown students (each as often as the Students table lists it), and
   * marks a student present exactly when the Attendance table records the
   * student for the class.
   */
  lemma {:induction false} RosterContents(attendance: Table, students: Table, classes: Table, classId: int, r: seq<RosterEntry>)
    requires Roster(attendance, students, classes, classId) == Success(r)
    ensures SortedByName(r)
    ensures multiset(r) == multiset(Candidates(Data(students), GroupKey(classes, classId), PresentIds(attendance, classId)))
    ensures forall e :: e in r <==>
      exists k :: 1 <= k < |students| && Shown(students[k], GroupKey(classes, classId), PresentIds(attendance, classId))
                  && e == EntryFor(students[k], PresentIds(attendance, classId))
    ensures forall e :: e in r ==>
      (e.isPresent <==> exists k :: 1 <= k < |attendance| && RecordsClass(attendance[k], classId)
                                    && StrictEq(Col(attendance[k], 1), e.id))
  {
    var present := PresentIds(attendance, classId);
    var key := GroupKey(classes, classId);
    var candidates := Candidates(Data(students), key, present);
    assert r == SortByName(candidates);
    forall e
      ensures e in r <==>
        exists k :: 1 <= k < |students| && Shown(students[k], key, present) && e == EntryFor(students[k], present)
    {
      assert e in r <==> e in multiset(candidates);
      CandidateOfStudents(students, key, present, e);
    }
    forall e | e in r
      ensures e.isPresent <==> exists k :: 1 <= k < |attendance| && RecordsClass(attendance[k], classId)
                                           && StrictEq(Col(attendance[k], 1), e.id)
    {
      var k :| 1 <= k < |students| && Shown(students[k], key, present) && e == EntryFor(students[k], present);
      PresentIdsMembership(attendance, classId, e.id);
    }
  }

  /** The roster fails exactly when two or more students are shown and one of them has a name that is not a string. */
  lemma {:induction false} RosterFailure(attendance: Table, students: Table, classes: Table, classId: int)
    ensures Roster(attendance, students, classes, classId).Failure? <==>
      var c := Candidates(Data(students), GroupKey(classes, classId), PresentIds(attendance, classId));
      |c| >= 2 && exists i :: 0 <= i < |c| && !c[i].name.Str?
  {
  }

  lemma {:induction false} NoneShown(students: Table, groupKey: Cell, present: seq<Cell>)
    requires forall k :: 0 <= k < |students| ==> !Shown(students[k], groupKey, present)
    ensures Candidates(students, groupKey, present) == []
  {
    if students != [] {
      NoneShown(students[1..], groupKey, present);
    }
  }

  /**
   * With no Classes row for the class the group key is `undefined`, which
   * no student's group cell equals, so the roster is empty (as long as no
   * Students row stops short of the group column).
   */
  lemma {:induction false} UnknownClassGivesEmptyRoster(attendance: Table, students: Table, classes: Table, classId: int)
    requires forall k :: 1 <= k < |classes| ==> !IsRowOfClass(classes[k], classId)
    requires forall k :: 1 <= k < |students| ==> Col(students[k], 3) != Undefined
    ensures Roster(attendance, students, classes, classId) == Success([])
  {
    var rows := Data(classes);
    assert forall j :: 0 <= j < |rows| ==> !IsRowOfClass(rows[j], classId) by {
      forall j | 0 <= j < |rows| ensures !IsRowOfClass(rows[j], classId) {
        assert rows[j] == classes[j + 1];
      }
    }
    assert GroupKey(classes, classId) == Undefined;
    var present := PresentIds(attendance, classId);
    forall k | 0 <= k < |Data(students)|
      ensures !Shown(Data(students)[k], Undefined, present)
    {
      assert Data(students)[k] == students[k + 1];
    }
    NoneShown(Data(students), Undefined, present);
  }
}

=== FILE: tabular_store.dfy ===
/**
 * The part of a spreadsheet the attendance writer uses: a sheet is a
 * sequence of rows addressed by 1-based row number. Deleting a row moves
 * every later row up by one; writing a range past the end grows the sheet.
 */
module TabularStore {
  import opened Cells

  /** What a read returns for a cell that holds nothing. */
  const Empty: Cell := Str("")

  /** Column `c` of a row as a range read returns it. */
  function SheetCell(row: Row, c: nat): Cell
  {
    if c < |row| then row[c] else Empty
  }

  /** The row holds something in some column. */
  predicate Occupied(row: Row)
  {
    exists c :: 0 <= c < |row| && row[c] != Empty
  }

  /** `getLastRow()`: the number of the last occupied row, 0 when there is none. */
  function LastRowOf(rows: Table): (n: nat)
    ensures n <= |rows|
    ensures n > 0 ==> Occupied(rows[n - 1])
    ensures forall k :: n <= k < |rows| ==> !Occupied(rows[k])
  {
    if rows == [] then 0
    else if Occupied(rows[|rows| - 1]) then |rows|
    else LastRowOf(rows[..|rows| - 1])
  }

  /** The first row holds the column headings. */
  predicate HasHeader(rows: Table)
  {
    |rows| > 0 && Occupied(rows[0])
  }

  /** Column B of rows 1 to `n`, as `getRange("B1:B" + n).getValues()` reads it. */
  function StudentColumnOf(rows: Table, n: nat): seq<Cell>
    requires n <= |rows|
  {
    seq(n, k requires 0 <= k < n => SheetCell(rows[k], 1))
  }

  /** The row with column `c` set to `v`, padded with empty cells as needed. */
  function WithCell(row: Row, c: nat, v: Cell): (r: Row)
    ensures |r| == if c < |row| then |row| else c + 1
    ensures r[c] == v
    ensures forall j :: 0 <= j < |r| && j != c ==> r[j] == SheetCell(row, j)
  {
    if c < |row| then row[c := v] else row + seq(c - |row|, _ => Empty) + [v]
  }

  /**
   * The rows after `setValues([[studentId, classId]])` on columns B:C of the
   * row with 0-based index `k`: that row gets the two values, every other
   * cell and row stays, and missing rows before it are added empty.
   */
  function WriteStudentClass(rows: Table, k: nat, studentId: Cell, classId: Cell): (r: Table)
    ensures |r| == if k < |rows| then |rows| else k + 1
    ensures forall j :: 0 <= j < |r| && j != k ==> r[j] == if j < |rows| then rows[j] else []
    ensures |r[k]| >= 3 && r[k][1] == studentId && r[k][2] == classId
    ensures forall c :: 0 <= c < |r[k]| && c != 1 && c != 2 ==>
              r[k][c] == if k < |rows| then SheetCell(rows[k], c) else Empty
  {
    var padded := if k < |rows| then rows else rows + seq(k + 1 - |rows|, _ => []);
    padded[k := WithCell(WithCell(padded[k], 1, studentId), 2, classId)]
  }

  /**
   * Reading any column other than B or C of the written row gives what it
   * gave before the write, and empty for a row the write added.
   */
  lemma {:induction false} WriteKeepsCells(rows: Table, k: nat, studentId: Cell, classId: Cell, c: nat)
    requires c != 1 && c != 2
    ensures SheetCell(WriteStudentClass(rows, k, studentId, classId)[k], c)
            == if k < |rows| then SheetCell(rows[k], c) else Empty
  {
    var r := WriteStudentClass(rows, k, studentId, classId);
    if k < |rows| && c >= |r[k]| {
      var once := WithCell(rows[k], 1, studentId);
      assert r[k] == WithCell(once, 2, classId);
      assert |r[k]| >= |once| >= |rows[k]|;
    }
  }

  /** A sheet of the spreadsheet, changed in place. */
  class Sheet {
    var rows: Table

    constructor (rows: Table)
      ensures this.rows == rows
    {
      this.rows := rows;
    }

    /** `getLastRow()`. */
    function LastRow(): (n: nat)
      reads this
      ensures n <= |rows|
    {
      LastRowOf(rows)
    }

    /** `getDataRange().getValues()`: rows 1 to the last occupied row. */
    method DataValues() returns (data: Table)
      ensures data == rows[..LastRowOf(rows)]
    {
      data := rows[..LastRowOf(rows)];
    }

    /** `getRange("B1:B" + n).getValues()`, one cell per row. */
    method StudentColumn(n: nat) returns (column: seq<Cell>)
      requires n <= |rows|
      ensures column == StudentColumnOf(rows, n)
      ensures |column| == n && forall k :: 0 <= k < n ==> column[k] == SheetCell(rows[k], 1)
    {
      column := StudentColumnOf(rows, n);
    }

    /** `deleteRow(rowNumber)`: the row goes, and every later row moves up by one. */
    method DeleteRow(rowNumber: nat)
      requires 1 <= rowNumber <= |rows|
      modifies this
      ensures rows == old(rows[..rowNumber - 1] + rows[rowNumber..])
    {
      rows := rows[..rowNumber - 1] + rows[rowNumber..];
    }

    /** `getRange("B" + r + ":C" + r).setValues([[studentId, classId]])`. */
    method SetStudentClass(rowNumber: nat, studentId: int, classId: int)
      requires rowNumber >= 1
      modifies this
      ensures rows == WriteStudentClass(old(rows), rowNumber - 1, Num(studentId), Num(classId))
    {
      rows := WriteStudentClass(rows, rowNumber - 1, Num(studentId), Num(classId));
    }
  }
}
